=== FILE: README.md ===
# couchmigrate, modelled in Dafny

couchmigrate replaces the live CouchDB design document `name` with a candidate
without leaving the database without an index. It backs the live document up to
`name_OLD`, stages the candidate at `name_NEW`, waits until the staged index
answers a query, copies `name_NEW` onto `name`, and deletes both staging
documents. This project models that protocol and proves what each step does to
the database.

Modules:

- `Documents` (documents.dfy): documents, and the no-op comparator. `_id` and `_rev` are held apart from the other members, so `delete d._rev` sets the revision to `None`.
- `Store` (store.dfy): the database as an immutable map from id to (revision, body), with CouchDB's optimistic concurrency. An insert or destroy goes through only when the supplied `_rev` matches the stored one, or when the id is absent and no `_rev` is given. This behaviour is assumed of the server; it is not code of the migrator.
  - Every successful write takes the next revision from a counter. When every stored revision came from that counter (`RevisionsIssued`), the new revision is newer than all stored ones, so the revision the write carried is stale afterwards (`PutIssuesNewRevision`). Writes keep that property.
  - Transport failures are injected through a set of request targets (`down`). Any request aimed at a target in that set fails.
  - Every request is appended to a log, so "no write happened" can be stated.
- `Primitives` (primitives.dfy): `copydoc`, `writedoc` and `deletedoc`. Each is a pure function returning the new store, the requests it issued, and the error it hands to its callback.
- `Naming` (naming.dfy): the `_OLD`/`_NEW` ids, and the design document that the readiness poll queries.
- `Progress` (progress.dfy): the indexing-progress figure computed from `_active_tasks`.
- `Migration` (migration.dfy): the eight steps, each a function from the run so far to the run after it. A run that has stopped passes through every later step untouched, as in `async.series`. Also the whole run, `Migrate`.
- `MigrationProperties` (migration_properties.dfy): what a whole run does in each case:
  - the database check fails;
  - the candidate is already live;
  - the staging write fails;
  - the promotion fails;
  - every step succeeds;
  - the same candidate is migrated a second time.

Behaviour of the code worth noting:

- `copydoc` reports a failed fetch of its source as an error (app.js:37-42); it does not swallow it. The backup step ignores that error, but the same failure in the promotion step stops the run.
- The no-op case is an ordinary error of the series, `design document is the same`. It is modelled as the distinguished reason `AlreadySame`, raised only by step 2.
- Progress comes from tasks with `type === 'indexer'` whose `design_document` is the `_NEW` id. Neither search-indexer tasks nor the database name are considered. The figure is the floor of the mean of the tasks' `progress` members, not a ratio of change counters.
- `deletedoc` swallows every error, including a failed destroy, not only "not found".
- Only views are polled. A candidate without `views` makes the poll throw; it is not treated as "ready".

The readiness poll is an unbounded, timer-driven loop, so it is modelled by an oracle. `ready` is the set of design documents whose view answers a query. If the polled document is not in `ready`, the run ends in `Waiting` and never gets further.

Because `writedoc` sets `obj._id` (app.js:90), the candidate's `_id` is the `_NEW` id when the poll runs. So the poll queries the staged design document (`PollQueriesStagedDocument`).

## Model

| member | source | states |
|---|---|---|
| Documents.SameIffFieldsEqual | app.js:160-166 | two documents compare equal exactly when their bodies without `_id` and `_rev` are equal |
| Documents.SameIgnoresIdAndRev | app.js:162-165 | changing only `_id` and `_rev` never makes a document compare different |
| Documents.SameIsEquivalence | app.js:160-166 | the comparator is reflexive, symmetric and transitive |
| Primitives.CopyDoc | app.js:29-74 | if the source cannot be fetched, its error is returned, the store is unchanged and only one `get` was issued. Otherwise exactly one insert is sent: the source body under the destination id, with the destination's revision if it was found and no revision if not. A missing destination is no obstacle. The copy succeeds exactly when the source is read and the store accepts the insert; a rejected insert is returned as a conflict. On success the destination's body is fully replaced and nothing else changes. A failed insert leaves the store unchanged |
| Primitives.WriteDoc | app.js:76-101 | the object is re-pointed at `docid` and its body kept. Its `_rev` becomes the revision found by the lookup; when the lookup fails, its own `_rev` is kept. Against an existing database whose insert of `docid` is reachable, the insert goes through whenever the lookup was not needed or succeeded. The write succeeds exactly when the database exists, the insert is reachable and the store accepts the revision. Otherwise the insert's error is returned with the store unchanged: unreachable, not found (no database), or a conflict. On success `docid` holds the body and nothing else changes |
| Primitives.WriteTwiceNoConflict | app.js:79-93 | in a store with no other writer, against an existing database whose lookup and insert of `docid` are reachable, two successive `writedoc`s to one id both succeed, provided the first object carries no stale revision. The second write's body is what remains |
| Primitives.DeleteDoc | app.js:103-116 | never reports an error. An unreadable document leaves the store unchanged. A readable one is destroyed with the revision just read. With the store reachable, the id is absent afterwards. No other id changes |
| Naming.StagingIdsDistinct | app.js:137-140 | the live, `_OLD` and `_NEW` ids are pairwise distinct, and each staging id determines its live id |
| Naming.FirstOccurrence | app.js:197 | the result is the index of an occurrence of the pattern with none before it, or none when the pattern does not occur |
| Naming.ReplaceFirst | app.js:197 | a string in which the pattern never occurs is returned unchanged; otherwise, at the index `k` where the pattern occurs with no occurrence before it, the pattern is replaced and everything before and after it is kept |
| Naming.PollTargetOfDesignId | app.js:197-202 | for an id starting with `_design/`, the poll queries that same design document |
| Naming.PollTargetOfStagedId | app.js:197-202 | the poll of a staged `_design/` id queries the staged document itself |
| Naming.PollTargetWithoutPrefix | app.js:197-202 | an id without `_design/` is polled under a prefixed id it does not have |
| Progress.Matching | app.js:215-221 | the kept tasks are all indexer tasks of the staged design document, and there are no more of them than tasks |
| Progress.MatchingKeepsExactlyIndexers | app.js:215-221 | each `indexer` task of the staged design document is kept as many times as it occurs in `_active_tasks`, and no other task is kept. So the number of shards is fixed |
| Progress.IndexingProgress | app.js:213-224 | the counting loop computes the reference progress figure |
| Progress.OverallIsFloorOfMean | app.js:224 | the figure `p` satisfies `p * shards <= sum < (p + 1) * shards` over the matching shards: the mean rounded down |
| Progress.OverallUnknownIffNoShard | app.js:213-224 | the figure is unknown exactly when no task indexes the staged design document; that is the division by zero |
| Progress.ProgressExample | app.js:213-224 | shards at 10 and 30 report 20. A search-indexer task and a task of another design document are ignored |
| Migration.Start | app.js:137-140 | before any step the candidate's `_rev` is deleted; its `_id` and body are kept |
| Migration.CheckDbStep | app.js:143-151 | the run continues exactly when the database exists and is reachable. Otherwise it stops at this step with the store's error |
| Migration.CheckSameStep | app.js:153-173 | the run stops with "design document is the same" exactly when the live document is fetched and its body equals the candidate's. A failed fetch lets it continue. Nothing is written |
| Migration.BackupStep | app.js:175-182 | the outcome is never changed: every backup error is swallowed. The store either is unchanged or has the live body copied to `_OLD`. The copy is made exactly when the live document is read and the store accepts the insert at `_OLD` (its revision found by the lookup, or none when `_OLD` is absent) |
| Migration.StageStep | app.js:184-188 | the run issues a lookup of `_NEW` and then one insert of the candidate. The candidate's `_id` becomes the `_NEW` id, and it takes over the revision found there. On success `_NEW` holds the candidate body and nothing else changes. On failure the run stops at this step with the store unchanged. The run goes on exactly when the store accepts the insert: a conflict (a leftover `_NEW` whose lookup failed) or an unreachable insert stops it |
| Migration.AwaitIndexStep | app.js:190-239 | the store and log are unchanged. The run goes on exactly when the design document named by the candidate's current `_id` answers; otherwise it waits for ever |
| Migration.PromoteStep | app.js:241-248 | on success `_NEW` was readable, the live id now holds its body, and nothing else changes. On failure the run stops at this step with the store unchanged. The run goes on exactly when `_NEW` is read and the store accepts the insert at the live id; a conflict or an unreachable live insert stops it |
| Migration.CleanupStep | app.js:250-260 | deleting a staging document never changes the outcome |
| Migration.Finish | app.js:262-267 | a run that got through every step is finished; a stopped run keeps its outcome |
| Migration.Migrate | app.js:142-267 | a run never stays running: it finishes, stops at a step, or waits for ever (`Waiting`) on an index that never answers. Only the database check, the no-op check, the staging write and the promotion can stop it. It stops as a no-op exactly when step 2 stops it |
| MigrationProperties.LaterStepsSkipped | app.js:142-267 | once the run has stopped after the database check, the no-op check, the staging write or the promotion, no later step does anything |
| MigrationProperties.DatabaseCheckFailureHalts | app.js:144-151 | a missing or unreachable database stops the run after one request, with the store unchanged |
| MigrationProperties.NoOpStopsWithoutWrites | app.js:153-173 | if the database exists and is reachable and the live body equals the candidate's, the run stops as a no-op after two reads, and no insert or destroy happens |
| MigrationProperties.NoOpOnlyWhenSame | app.js:153-173 | the run stops as a no-op if and only if the database is reachable and the live body equals the candidate's |
| MigrationProperties.UnreadableLiveContinues | app.js:155-159 | if the database exists and is reachable, an absent or unreadable live document lets the run continue past the first two steps with the store unchanged |
| MigrationProperties.StageFailureHalts | app.js:184-188 | if the database exists and is reachable, the candidate's body differs from the live one (or the live document is unreadable), and the insert at `_NEW` is unreachable, the run stops at the staging write with that error. The live document is untouched, nothing is destroyed, and no write addressed the live id |
| MigrationProperties.StageRejectionHalts | app.js:184-188 | in a run that gets past the no-op check, whatever makes the staging write fail stops the run there with the store's error. The live document is untouched, nothing is destroyed, and no write addressed the live id |
| MigrationProperties.LeftoverStagingConflicts | app.js:81-98 | if the database exists and is reachable and the candidate's body differs from the live one (or the live document is unreadable), a `_NEW` left over from an earlier run whose lookup fails, while its insert is reachable, is inserted over without a revision. The store rejects it, the run stops at the staging write with a conflict, and `_NEW` is unchanged |
| MigrationProperties.StagingSucceeds | app.js:175-188 | for a candidate whose body differs from the live one (or whose live document is absent), against an existing database where only the backup write may fail, the run gets through the staging write. `_NEW` holds the candidate body and no document outside the three touched ids changes |
| MigrationProperties.PromotionSucceeds | app.js:175-248 | for a candidate whose body differs from the live one (or whose live document is absent), against an existing database where only the backup write may fail and whose staged index answers, the run gets through the promotion. The live id holds the candidate body and no document outside the three touched ids changes |
| MigrationProperties.RunToCompletion | app.js:175-260 | for a candidate whose body differs from the live one (or whose live document is absent), against an existing database where only the backup write may fail and whose staged index becomes ready, the run finishes. The live id holds the candidate body, `_OLD` and `_NEW` are absent, and every other document is unchanged. This holds even when the backup write fails |
| MigrationProperties.PromoteFailureKeepsStaging | app.js:241-248 | for a candidate whose body differs from the live one (or whose live document is absent), against an existing database whose staged index answers and where only the insert at the live id is unreachable, the promotion fails and the run stops with nothing rolled back. The live document is untouched, `_NEW` holds the candidate, and `_OLD` holds the former live body |
| MigrationProperties.SecondRunIsNoOp | app.js:153-173 | against an existing database with no faults, after a completed run of a candidate that differed from the live body (or had no live document) and whose staged index answered, migrating the same candidate again stops as a no-op and leaves the store unchanged |
| MigrationProperties.PollQueriesStagedDocument | app.js:196-207 | for a live id starting with `_design/`, once staging succeeds the poll queries the `_NEW` design document, so the run waits for ever exactly when that document's index never answers |

## Left out

- Command-line parsing, the `COUCH_URL` variable and the client configuration (app.js:1-21) are input plumbing. The database is given directly as a `Db` value.
- Reading the design-document file, `require` of a `.js` file, JSON parsing and `process.exit` (app.js:122-135, 270-281) are I/O. The model takes an already parsed candidate.
- Logging and `debug` (app.js:23-27) have no effect on the outcome.
- The poll's timer, `async.doWhilst`, the view query and the HTTP `_active_tasks` request (app.js:192-238) are unbounded, timer-driven I/O. They are replaced by the `ready` oracle; only the progress arithmetic is kept.
- The choice of the first view, `Object.keys(dd.views)[0]`, is not modelled, nor is the exception when `views` is missing.
- `clone` (app.js:118-120) is the identity here, because values are immutable. That is exactly what it achieves for the comparator: the candidate keeps its `_id`. How `JSON.stringify` drops `undefined` and function members is not modelled.
- Documents.Same: compares bodies as maps. `JSON.stringify` also depends on key order, so the source may call two documents different when the model calls them the same. Modelling the serialiser's key order was judged out of scope.
- Progress.IndexingProgress: takes each task's `progress` as an integer. `parseInt` on a non-integer or non-numeric member is not modelled. When no task matches, the source yields `NaN`; the model yields `None`.
- Migration.Migrate: requires the candidate to carry an `_id`. With none, the source builds ids from the string `undefined`, and that case is not modelled.
- Store.Put, Store.Remove: a failed request has no effect, and each request target's faults last the whole run. A write that commits but whose response times out (the client's 10-second timeout, app.js:14) is not modelled, nor are intermittent faults. The promise that a failed promotion leaves the live document untouched rests on this assumption.
- Documents.Json: numbers in document bodies are integers. Other JSON numbers, and the distinction between `-0` and `0`, are not represented; bodies are only compared for equality.
- Revision tokens are integers from a counter rather than CouchDB's `N-hash` strings. Deleted documents leave no tombstone.
- Concurrent migrations against the same id are not modelled, nor are writes by other clients. The store's own index building is external.

=== FILE: documents.dfy ===
/**
 * CouchDB documents as the migrator sees them, and the comparator that
 * decides whether a candidate design document differs from the live one.
 */
module Documents {
  import opened Wrappers

  /** A document identifier, such as `_design/foo`. */
  type Id = string

  /** A revision token. The store takes a new one from a counter on every write. */
  type Rev = nat

  /** A JSON value inside a document body (numbers are integers here). */
  datatype Json =
    | Null
    | Bool(b: bool)
    | Number(n: int)
    | Text(s: string)
    | List(items: seq<Json>)
    | Object(members: map<string, Json>)

  /** The members of a document other than the volatile `_id` and `_rev`. */
  type Fields = m: map<string, Json> | "_id" !in m && "_rev" !in m witness map[]

  /**
   * A document object as JavaScript holds it: `_id` and `_rev` are kept apart
   * from the other members, so deleting one of them is setting it to `None`.
   */
  datatype Doc = Doc(id: Option<Id>, rev: Option<Rev>, fields: Fields)

  /** The document with `_id` and `_rev` deleted. */
  function Strip(d: Doc): Doc
  {
    d.(id := None, rev := None)
  }

  /**
   * The no-op comparator: both documents, with `_id` and `_rev` deleted from
   * copies of them, serialise to the same text. Values are compared as maps,
   * so the order of keys plays no part.
   */
  predicate Same(a: Doc, b: Doc)
  {
    Strip(a) == Strip(b)
  }

  /** The comparator looks at the body and at nothing else. */
  lemma SameIffFieldsEqual(a: Doc, b: Doc)
    ensures Same(a, b) <==> a.fields == b.fields
  {
  }

  /** Changing only the identifier and revision never makes a document differ. */
  lemma SameIgnoresIdAndRev(d: Doc, id: Option<Id>, rev: Option<Rev>)
    ensures Same(d, d.(id := id, rev := rev))
  {
  }

  /** The comparator is an equivalence relation. */
  lemma SameIsEquivalence(a: Doc, b: Doc, c: Doc)
    ensures Same(a, a)
    ensures Same(a, b) ==> Same(b, a)
    ensures Same(a, b) && Same(b, c) ==> Same(a, c)
  {
  }
}

=== FILE: migration.dfy ===
/**
 * The migration pipeline: check the database, detect a no-op, back up the live
 * design document to `_OLD`, stage the candidate at `_NEW`, wait for its index,
 * promote `_NEW` to the live id, and delete `_OLD` and `_NEW`.
 *
 * The steps run in series: each is a function from the run so far to the run
 * after it, and a run that has stopped passes through every later step
 * untouched, as a series of callbacks does once one of them reports an error.
 */
module Migration {
  import opened Wrappers
  import opened Documents
  import opened Store
  import opened Primitives
  import opened Naming

  /** The steps of the series, in order. */
  datatype Step = CheckDb | CheckSame | Backup | Stage | AwaitIndex | Promote | DeleteOld | DeleteNew

  /** The error a step hands to the series. */
  datatype Reason = StoreFailed(error: Error) | AlreadySame

  /**
   * Where a run stands: still going, done, stopped by a step's error, or
   * polling for an index that never becomes ready (the poll has no bound).
   */
  datatype Outcome = Running | Finished | Halted(at: Step, reason: Reason) | Waiting

  /** A run: the store, every request issued so far, the candidate object, and the outcome. */
  datatype Run = Run(db: Db, log: seq<Request>, dd: Doc, outcome: Outcome)

  /** The run before the first step: the candidate's `_rev` is deleted. */
  function Start(db: Db, dd: Doc): (r: Run)
    ensures r.outcome.Running? && r.db == db && r.log == []
    ensures r.dd.rev.None? && r.dd.id == dd.id && r.dd.fields == dd.fields
  {
    Run(db, [], dd.(rev := None), Running)
  }

  /** Step 1: the database must exist; any error stops the series. */
  function CheckDbStep(r: Run): (s: Run)
    ensures !r.outcome.Running? ==> s == r
    ensures r.outcome.Running? ==> s.db == r.db && s.dd == r.dd && s.log == r.log + [Info]
    ensures r.outcome.Running? ==>
      if r.db.created && InfoAt !in r.db.down then s.outcome.Running?
      else s.outcome.Halted? && s.outcome.at == CheckDb && s.outcome.reason.StoreFailed?
  {
    if !r.outcome.Running? then r
    else
      var err := CheckDatabase(r.db);
      r.(log := r.log + [Info],
         outcome := if err.Some? then Halted(CheckDb, StoreFailed(err.value)) else Running)
  }

  /**
   * Step 2: fetch the live design document. If the fetch fails for any reason
   * the series goes on; if the live document is the same as the candidate the
   * series stops with "design document is the same".
   */
  function CheckSameStep(name: Id, r: Run): (s: Run)
    ensures !r.outcome.Running? ==> s == r
    ensures r.outcome.Running? ==> s.db == r.db && s.dd == r.dd && s.log == r.log + [Get(name)]
    ensures r.outcome.Running? ==>
      if Visible(r.db, name) && r.db.docs[name].fields == r.dd.fields
      then s.outcome == Halted(CheckSame, AlreadySame)
      else s.outcome.Running?
  {
    if !r.outcome.Running? then r
    else
      var live := Fetch(r.db, name);
      SameIffFieldsEqual(if live.Success? then live.value else r.dd, r.dd);
      r.(log := r.log + [Get(name)],
         outcome := if live.Success? && Same(live.value, r.dd) then Halted(CheckSame, AlreadySame) else Running)
  }

  /** Step 3: copy the live document to `_OLD`; whatever goes wrong is ignored. */
  function BackupStep(name: Id, r: Run): (s: Run)
    ensures !r.outcome.Running? ==> s == r
    ensures s.outcome == r.outcome && s.dd == r.dd
    ensures r.outcome.Running? ==> s.log == r.log + CopyDoc(r.db, name, OldId(name)).log
    ensures r.outcome.Running? ==>
      s.db == r.db || (name in r.db.docs && Replaced(r.db, s.db, OldId(name), r.db.docs[name].fields))
    // the backup is made whenever the live document is read and the store accepts the insert at `_OLD`
    ensures r.outcome.Running? && Visible(r.db, name) && r.db.created && InsertAt(OldId(name)) !in r.db.down
            && Accepts(r.db, OldId(name), if Visible(r.db, OldId(name)) then Some(r.db.docs[OldId(name)].rev) else None)
            ==> Replaced(r.db, s.db, OldId(name), r.db.docs[name].fields)
    // and only then: a backup that fails leaves the store alone
    ensures r.outcome.Running? && s.db != r.db ==>
      && Visible(r.db, name) && r.db.created && InsertAt(OldId(name)) !in r.db.down
      && Accepts(r.db, OldId(name), if Visible(r.db, OldId(name)) then Some(r.db.docs[OldId(name)].rev) else None)
  {
    if !r.outcome.Running? then r
    else
      var copy := CopyDoc(r.db, name, OldId(name));
      r.(db := copy.db, log := r.log + copy.log)
  }

  /** Step 4: write the candidate to `_NEW`; an error stops the series. The candidate object is mutated. */
  function StageStep(name: Id, r: Run): (s: Run)
    ensures !r.outcome.Running? ==> s == r
    // the requests: a lookup of `_NEW`, then one insert of the re-pointed candidate
    ensures r.outcome.Running? ==> s.log == r.log + [Get(NewId(name)), Insert(s.dd)]
    // the candidate is re-pointed at `_NEW` and takes over the revision found there
    ensures r.outcome.Running? ==>
      && s.dd.id == Some(NewId(name))
      && s.dd.fields == r.dd.fields
      && s.dd.rev == if Visible(r.db, NewId(name)) then Some(r.db.docs[NewId(name)].rev) else r.dd.rev
    // on success `_NEW` holds the candidate body and nothing else changed
    ensures r.outcome.Running? && s.outcome.Running? ==> Replaced(r.db, s.db, NewId(name), r.dd.fields)
    // on failure the run stops here with the store as it was
    ensures r.outcome.Running? && !s.outcome.Running? ==>
      s.db == r.db && s.outcome.Halted? && s.outcome.at == Stage && s.outcome.reason.StoreFailed?
    ensures r.outcome.Running? && r.db.created && InsertAt(NewId(name)) !in r.db.down
            && (if NewId(name) in r.db.docs then GetAt(NewId(name)) !in r.db.down else r.dd.rev.None?)
            ==> s.outcome.Running?
    ensures r.outcome.Running? && InsertAt(NewId(name)) in r.db.down ==>
      s.outcome == Halted(Stage, StoreFailed(Unreachable))
    // the run goes on exactly when the store accepts the insert; a rejected insert stops it as a conflict
    ensures r.outcome.Running? ==>
      (s.outcome.Running? <==> r.db.created && InsertAt(NewId(name)) !in r.db.down && Accepts(r.db, NewId(name), s.dd.rev))
    ensures r.outcome.Running? && r.db.created && InsertAt(NewId(name)) !in r.db.down
            && !Accepts(r.db, NewId(name), s.dd.rev) ==>
      s.outcome == Halted(Stage, StoreFailed(Conflict))
    ensures s.outcome.Running? ==> s.dd.id == Some(NewId(name)) && s.dd.fields == r.dd.fields
  {
    if !r.outcome.Running? then r
    else
      var w := WriteDoc(r.db, r.dd, NewId(name));
      r.(db := w.effect.db, log := r.log + w.effect.log, dd := w.obj,
         outcome := if w.effect.err.Some? then Halted(Stage, StoreFailed(w.effect.err.value)) else Running)
  }

  /**
   * Step 5: poll the view of the design document named by the candidate's
   * current `_id` until it answers. `ready` holds the design documents whose
   * index answers a query; any other document is polled forever.
   */
  function AwaitIndexStep(ready: set<Id>, r: Run): (s: Run)
    requires r.outcome.Running? ==> r.dd.id.Some?
    ensures !r.outcome.Running? ==> s == r
    ensures s.db == r.db && s.log == r.log && s.dd == r.dd
    ensures r.outcome.Running? ==>
      if PollTarget(r.dd.id.value) in ready then s.outcome.Running? else s.outcome.Waiting?
  {
    if !r.outcome.Running? then r
    else if PollTarget(r.dd.id.value) in ready then r
    else r.(outcome := Waiting)
  }

  /** Step 6: copy `_NEW` onto the live id; an error stops the series. */
  function PromoteStep(name: Id, r: Run): (s: Run)
    ensures !r.outcome.Running? ==> s == r
    ensures s.dd == r.dd
    ensures r.log <= s.log
    // on success the live id holds the staged body and nothing else changed
    ensures r.outcome.Running? && s.outcome.Running? ==>
      Visible(r.db, NewId(name)) && Replaced(r.db, s.db, name, r.db.docs[NewId(name)].fields)
    // on failure the run stops here with the store as it was
    ensures r.outcome.Running? && !s.outcome.Running? ==>
      s.db == r.db && s.outcome.Halted? && s.outcome.at == Promote && s.outcome.reason.StoreFailed?
    // a readable `_NEW` is promoted whenever the live id can be read and written
    ensures r.outcome.Running? && Visible(r.db, NewId(name)) && InsertAt(name) !in r.db.down
            && (name in r.db.docs ==> GetAt(name) !in r.db.down)
            ==> s.outcome.Running?
    ensures r.outcome.Running? && Visible(r.db, NewId(name)) && InsertAt(name) in r.db.down ==>
      s.outcome == Halted(Promote, StoreFailed(Unreachable))
    // the run goes on exactly when `_NEW` is read and the store accepts the insert at the live id
    ensures r.outcome.Running? ==>
      (s.outcome.Running? <==>
        && Visible(r.db, NewId(name)) && r.db.created && InsertAt(name) !in r.db.down
        && Accepts(r.db, name, if Visible(r.db, name) then Some(r.db.docs[name].rev) else None))
    ensures r.outcome.Running? && Visible(r.db, NewId(name)) && InsertAt(name) !in r.db.down
            && !Accepts(r.db, name, if Visible(r.db, name) then Some(r.db.docs[name].rev) else None) ==>
      s.outcome == Halted(Promote, StoreFailed(Conflict))
  {
    if !r.outcome.Running? then r
    else
      var copy := CopyDoc(r.db, NewId(name), name);
      r.(db := copy.db, log := r.log + copy.log,
         outcome := if copy.err.Some? then Halted(Promote, StoreFailed(copy.err.value)) else Running)
  }

  /** Steps 7 and 8: delete a staging document. `deletedoc` always hands on no error, so the outcome is kept. */
  function CleanupStep(id: Id, r: Run): (s: Run)
    ensures !r.outcome.Running? ==> s == r
    ensures s.outcome == r.outcome && s.dd == r.dd
    ensures r.outcome.Running? ==> s.db == DeleteDoc(r.db, id).db && s.log == r.log + DeleteDoc(r.db, id).log
  {
    if !r.outcome.Running? then r
    else
      var del := DeleteDoc(r.db, id);
      r.(db := del.db, log := r.log + del.log)
  }

  /** The final callback: a run that got through every step has finished. */
  function Finish(r: Run): (s: Run)
    ensures !s.outcome.Running?
    ensures s.db == r.db && s.log == r.log && s.dd == r.dd
    ensures r.outcome.Running? ==> s.outcome.Finished?
    ensures !r.outcome.Running? ==> s == r
  {
    if r.outcome.Running? then r.(outcome := Finished) else r
  }

  /** The run up to and including the no-op check. */
  function UpToSame(db: Db, dd: Doc): Run
    requires dd.id.Some?
  {
    CheckSameStep(dd.id.value, CheckDbStep(Start(db, dd)))
  }

  /** The run up to and including the staging write. */
  function UpToStage(db: Db, dd: Doc): (r: Run)
    requires dd.id.Some?
    ensures r.outcome.Running? ==> r.dd.id == Some(NewId(dd.id.value))
  {
    StageStep(dd.id.value, BackupStep(dd.id.value, UpToSame(db, dd)))
  }

  /** The run up to and including the promotion. */
  function UpToPromote(db: Db, dd: Doc, ready: set<Id>): Run
    requires dd.id.Some?
  {
    PromoteStep(dd.id.value, AwaitIndexStep(ready, UpToStage(db, dd)))
  }

  /**
   * A whole migration of the candidate `dd` whose `_id` names the live design
   * document. Only the database check, the no-op check, the staging write and
   * the promotion can stop it; the backup and the cleanup never do.
   */
  function Migrate(db: Db, dd: Doc, ready: set<Id>): (r: Run)
    requires dd.id.Some?
    ensures !r.outcome.Running?
    ensures r.outcome.Halted? ==> r.outcome.at in {CheckDb, CheckSame, Stage, Promote}
    ensures r.outcome.Halted? ==> (r.outcome.reason.AlreadySame? <==> r.outcome.at == CheckSame)
  {
    var name := dd.id.value;
    Finish(CleanupStep(NewId(name), CleanupStep(OldId(name), UpToPromote(db, dd, ready))))
  }
}

=== FILE: migration_properties.dfy ===
/**
 * What a whole migration does to the store, for each way a run can go: the
 * database check fails, the candidate is already live, the staging write or
 * the promotion fails, or every step succeeds.
 */
module MigrationProperties {
  import opened Wrappers
  import opened Documents
  import opened Store
  import opened Primitives
  import opened Naming
  import opened Migration

  /** The live design document is present and its body equals the candidate's. */
  predicate LiveIsSame(db: Db, dd: Doc)
    requires dd.id.Some?
  {
    Visible(db, dd.id.value) && db.docs[dd.id.value].fields == dd.fields
  }

  /** Once a prefix of the series has stopped, no later step does anything. */
  lemma LaterStepsSkipped(db: Db, dd: Doc, ready: set<Id>)
    requires dd.id.Some?
    ensures !CheckDbStep(Start(db, dd)).outcome.Running? ==> Migrate(db, dd, ready) == CheckDbStep(Start(db, dd))
    ensures !UpToSame(db, dd).outcome.Running? ==> Migrate(db, dd, ready) == UpToSame(db, dd)
    ensures !UpToStage(db, dd).outcome.Running? ==> Migrate(db, dd, ready) == UpToStage(db, dd)
    ensures !UpToPromote(db, dd, ready).outcome.Running? ==> Migrate(db, dd, ready) == UpToPromote(db, dd, ready)
  {
  }

  /** A missing or unreachable database stops the run after one request, before any write. */
  lemma DatabaseCheckFailureHalts(db: Db, dd: Doc, ready: set<Id>)
    requires dd.id.Some?
    requires !db.created || InfoAt in db.down
    ensures Migrate(db, dd, ready).outcome.Halted?
    ensures Migrate(db, dd, ready).outcome.at == CheckDb
    ensures Migrate(db, dd, ready).db == db
    ensures Migrate(db, dd, ready).log == [Info]
  {
  }

  /**
   * A candidate whose body equals the live one stops the run with "design
   * document is the same" after two reads, and nothing is written.
   */
  lemma NoOpStopsWithoutWrites(db: Db, dd: Doc, ready: set<Id>)
    requires dd.id.Some?
    requires db.created && InfoAt !in db.down
    requires LiveIsSame(db, dd)
    ensures Migrate(db, dd, ready).outcome == Halted(CheckSame, AlreadySame)
    ensures Migrate(db, dd, ready).db == db
    ensures Migrate(db, dd, ready).log == [Info, Get(dd.id.value)]
    ensures NoWrites(Migrate(db, dd, ready).log)
  {
  }

  /** Conversely, the run stops as a no-op only when the live body equals the candidate's. */
  lemma NoOpOnlyWhenSame(db: Db, dd: Doc, ready: set<Id>)
    requires dd.id.Some?
    ensures Migrate(db, dd, ready).outcome == Halted(CheckSame, AlreadySame)
            <==> db.created && InfoAt !in db.down && LiveIsSame(db, dd)
  {
  }

  /** A live document that cannot be fetched (absent, or the request fails) does not stop the run. */
  lemma UnreadableLiveContinues(db: Db, dd: Doc, ready: set<Id>)
    requires dd.id.Some?
    requires db.created && InfoAt !in db.down
    requires !Visible(db, dd.id.value)
    ensures UpToSame(db, dd).outcome.Running?
    ensures UpToSame(db, dd).db == db
    ensures !(Migrate(db, dd, ready).outcome.Halted? && Migrate(db, dd, ready).outcome.at in {CheckDb, CheckSame})
  {
  }

  /**
   * A staging write that fails stops the run at step 4: the live document is
   * untouched, nothing is destroyed, and no write ever addressed the live id.
   */
  lemma StageFailureHalts(db: Db, dd: Doc, ready: set<Id>)
    requires dd.id.Some?
    requires db.created && InfoAt !in db.down && !LiveIsSame(db, dd)
    requires InsertAt(NewId(dd.id.value)) in db.down
    ensures Migrate(db, dd, ready).outcome == Halted(Stage, StoreFailed(Unreachable))
    ensures var r := Migrate(db, dd, ready); var name := dd.id.value;
      && (name in r.db.docs <==> name in db.docs)
      && (name in db.docs ==> r.db.docs[name] == db.docs[name])
    ensures var r := Migrate(db, dd, ready);
      forall i :: 0 <= i < |r.log| && r.log[i].IsWrite() ==>
        r.log[i].Insert? && r.log[i].doc.id != dd.id
  {
  }

  /**
   * Whatever makes the staging write fail, the run stops at step 4 with the
   * store's error: the live document is untouched and no write addressed the
   * live id.
   */
  lemma StageRejectionHalts(db: Db, dd: Doc, ready: set<Id>)
    requires dd.id.Some?
    requires UpToSame(db, dd).outcome.Running? && !UpToStage(db, dd).outcome.Running?
    ensures var r := Migrate(db, dd, ready);
      r.outcome.Halted? && r.outcome.at == Stage && r.outcome.reason.StoreFailed?
    ensures var r := Migrate(db, dd, ready); var name := dd.id.value;
      && (name in r.db.docs <==> name in db.docs)
      && (name in db.docs ==> r.db.docs[name] == db.docs[name])
    ensures var r := Migrate(db, dd, ready);
      forall i :: 0 <= i < |r.log| && r.log[i].IsWrite() ==>
        r.log[i].Insert? && r.log[i].doc.id != dd.id
  {
  }

  /**
   * A `_NEW` left over from an earlier run whose lookup fails makes the
   * staging insert go out without a revision, so the store rejects it as a
   * conflict and the run stops at step 4.
   */
  lemma LeftoverStagingConflicts(db: Db, dd: Doc, ready: set<Id>)
    requires dd.id.Some?
    requires db.created && InfoAt !in db.down && !LiveIsSame(db, dd)
    requires NewId(dd.id.value) in db.docs
    requires GetAt(NewId(dd.id.value)) in db.down && InsertAt(NewId(dd.id.value)) !in db.down
    ensures Migrate(db, dd, ready).outcome == Halted(Stage, StoreFailed(Conflict))
    ensures NewId(dd.id.value) in Migrate(db, dd, ready).db.docs
    ensures Migrate(db, dd, ready).db.docs[NewId(dd.id.value)] == db.docs[NewId(dd.id.value)]
  {
  }

  /** The ids a migration of `name` works on. */
  function Touched(name: Id): set<Id>
  {
    {name, OldId(name), NewId(name)}
  }

  /**
   * Under the same conditions, the run gets through the staging write: `_NEW`
   * holds the candidate body and no document outside the touched ids changed.
   */
  lemma StagingSucceeds(db: Db, dd: Doc)
    requires dd.id.Some?
    requires db.created && db.down <= {InsertAt(OldId(dd.id.value))}
    requires !LiveIsSame(db, dd)
    ensures var r := UpToStage(db, dd); var name := dd.id.value;
      && r.outcome.Running?
      && r.db.created && r.db.down == db.down
      && Replaced(BackupStep(name, UpToSame(db, dd)).db, r.db, NewId(name), dd.fields)
      && r.db.docs - Touched(name) == db.docs - Touched(name)
  {
    var name := dd.id.value;
    StagingIdsDistinct(name, name);
    var r1 := UpToSame(db, dd);
    assert r1.outcome.Running? && r1.db == db;
    var r2 := BackupStep(name, r1);
    assert r2.db.created && r2.db.down == db.down;
    assert r2.db.docs - Touched(name) == db.docs - Touched(name);
    var r3 := StageStep(name, r2);
    assert r3.outcome.Running?;
  }

  /**
   * Under the same conditions, once the staged index answers, the run gets
   * through the promotion: the live id holds the candidate body and no
   * document outside the touched ids changed.
   */
  lemma PromotionSucceeds(db: Db, dd: Doc, ready: set<Id>)
    requires dd.id.Some?
    requires db.created && db.down <= {InsertAt(OldId(dd.id.value))}
    requires !LiveIsSame(db, dd)
    requires PollTarget(NewId(dd.id.value)) in ready
    ensures var r := UpToPromote(db, dd, ready); var name := dd.id.value;
      && r.outcome.Running?
      && r.db.created && r.db.down == db.down
      && name in r.db.docs && r.db.docs[name].fields == dd.fields
      && r.db.docs - Touched(name) == db.docs - Touched(name)
  {
    var name := dd.id.value;
    StagingIdsDistinct(name, name);
    StagingSucceeds(db, dd);
    var r3 := UpToStage(db, dd);
    var r4 := AwaitIndexStep(ready, r3);
    assert r4 == r3;
    var r5 := PromoteStep(name, r4);
    assert Visible(r4.db, NewId(name));
    assert r5.outcome.Running?;
    assert Replaced(r4.db, r5.db, name, dd.fields);
  }

  /**
   * A run against a reachable database whose index becomes ready finishes: the
   * live id holds the candidate body, `_OLD` and `_NEW` are gone, and no other
   * document changed. A failing backup write (the only fault allowed here)
   * changes none of this.
   */
  lemma RunToCompletion(db: Db, dd: Doc, ready: set<Id>)
    requires dd.id.Some?
    requires db.created && db.down <= {InsertAt(OldId(dd.id.value))}
    requires !LiveIsSame(db, dd)
    requires PollTarget(NewId(dd.id.value)) in ready
    ensures var r := Migrate(db, dd, ready); var name := dd.id.value;
      && r.outcome == Finished
      && r.db.created && r.db.down == db.down
      && name in r.db.docs && r.db.docs[name].fields == dd.fields
      && OldId(name) !in r.db.docs && NewId(name) !in r.db.docs
      && r.db.docs - Touched(name) == db.docs - Touched(name)
  {
    var name := dd.id.value;
    StagingIdsDistinct(name, name);
    var oldId, newId := OldId(name), NewId(name);
    PromotionSucceeds(db, dd, ready);
    var r5 := UpToPromote(db, dd, ready);
    var r6 := CleanupStep(oldId, r5);
    assert oldId !in r6.db.docs && name in r6.db.docs && r6.db.docs[name] == r5.db.docs[name];
    assert r6.db.docs - Touched(name) == db.docs - Touched(name);
    var r7 := CleanupStep(newId, r6);
    assert newId !in r7.db.docs && oldId !in r7.db.docs;
    assert name in r7.db.docs && r7.db.docs[name] == r5.db.docs[name];
    assert r7.db.docs - Touched(name) == db.docs - Touched(name);
  }

  /**
   * A promotion that fails stops the run at step 6 with nothing rolled back:
   * the live document is untouched, `_NEW` holds the candidate and, when there
   * was a live document, `_OLD` holds its body for manual recovery.
   */
  lemma PromoteFailureKeepsStaging(db: Db, dd: Doc, ready: set<Id>)
    requires dd.id.Some?
    requires db.created && db.down == {InsertAt(dd.id.value)}
    requires !LiveIsSame(db, dd)
    requires PollTarget(NewId(dd.id.value)) in ready
    ensures var r := Migrate(db, dd, ready); var name := dd.id.value;
      && r.outcome == Halted(Promote, StoreFailed(Unreachable))
      && (name in r.db.docs <==> name in db.docs)
      && (name in db.docs ==> r.db.docs[name] == db.docs[name])
      && NewId(name) in r.db.docs && r.db.docs[NewId(name)].fields == dd.fields
      && (name in db.docs ==> OldId(name) in r.db.docs && r.db.docs[OldId(name)].fields == db.docs[name].fields)
  {
    var name := dd.id.value;
    StagingIdsDistinct(name, name);
    LaterStepsSkipped(db, dd, ready);
    var r1 := UpToSame(db, dd);
    var r2 := BackupStep(name, r1);
    assert name in db.docs ==> Replaced(db, r2.db, OldId(name), db.docs[name].fields);
    var r3 := StageStep(name, r2);
    assert r3.outcome.Running?;
    var r4 := AwaitIndexStep(ready, r3);
    var r5 := PromoteStep(name, r4);
    assert r5 == UpToPromote(db, dd, ready);
    assert r5.db == r3.db;
  }

  /** Migrating the same candidate again after a completed run is a no-op. */
  lemma SecondRunIsNoOp(db: Db, dd: Doc, ready: set<Id>, readyLater: set<Id>)
    requires dd.id.Some?
    requires db.created && db.down == {}
    requires !LiveIsSame(db, dd)
    requires PollTarget(NewId(dd.id.value)) in ready
    ensures Migrate(Migrate(db, dd, ready).db, dd, readyLater).outcome == Halted(CheckSame, AlreadySame)
    ensures Migrate(Migrate(db, dd, ready).db, dd, readyLater).db == Migrate(db, dd, ready).db
  {
    RunToCompletion(db, dd, ready);
    NoOpStopsWithoutWrites(Migrate(db, dd, ready).db, dd, readyLater);
  }

  /**
   * The staging write re-points the candidate's `_id` at `_NEW`, so the poll
   * waits for the staged design document's index, not the live one's: the run
   * waits for ever exactly when that index never answers.
   */
  lemma PollQueriesStagedDocument(db: Db, dd: Doc, ready: set<Id>)
    requires dd.id.Some?
    requires |dd.id.value| >= |DesignPrefix| && dd.id.value[..|DesignPrefix|] == DesignPrefix
    ensures UpToStage(db, dd).outcome.Running? ==>
      PollTarget(UpToStage(db, dd).dd.id.value) == NewId(dd.id.value)
    ensures UpToStage(db, dd).outcome.Running? ==>
      (Migrate(db, dd, ready).outcome.Waiting? <==> NewId(dd.id.value) !in ready)
  {
    PollTargetOfStagedId(dd.id.value);
    LaterStepsSkipped(db, dd, ready);
  }
}

=== FILE: naming.dfy ===
/**
 * Names the migrator derives from the live design document id: the two
 * staging ids, and the design document the index poll queries.
 */
module Naming {
  import opened Wrappers
  import opened Documents

  const OldSuffix: string := "_OLD"
  const NewSuffix: string := "_NEW"

  /** The prefix every design document id carries, removed by `replace(/_design\//, '')`. */
  const DesignPrefix: string := "_design/"

  /** Where the live design document is backed up. */
  function OldId(name: Id): Id { name + OldSuffix }

  /** Where the candidate design document is staged. */
  function NewId(name: Id): Id { name + NewSuffix }

  /** The three ids a migration touches are pairwise distinct, and each staging id names one live id. */
  lemma StagingIdsDistinct(name: Id, other: Id)
    ensures OldId(name) != name && NewId(name) != name
    ensures OldId(name) != NewId(name)
    ensures OldId(name) == OldId(other) ==> name == other
    ensures NewId(name) == NewId(other) ==> name == other
  {
    assert |OldId(name)| == |name| + 4 == |NewId(name)|;
    assert OldId(name)[|name| + 1] == 'O' != 'N' == NewId(name)[|name| + 1];
    if OldId(name) == OldId(other) {
      assert name == OldId(name)[..|name|] == OldId(other)[..|other|] == other;
    }
    if NewId(name) == NewId(other) {
      assert name == NewId(name)[..|name|] == NewId(other)[..|other|] == other;
    }
  }

  /** `pat` occurs in `s` starting at index `k`. */
  predicate OccursAt(s: string, pat: string, k: nat)
  {
    k + |pat| <= |s| && s[k..k + |pat|] == pat
  }

  /** The index of the first occurrence of `pat` in `s`, as a regular-expression search finds it. */
  function FirstOccurrence(s: string, pat: string): (r: Option<nat>)
    ensures r.Some? ==> OccursAt(s, pat, r.value)
    ensures r.Some? ==> forall j :: 0 <= j < r.value ==> !OccursAt(s, pat, j)
    ensures r.None? ==> forall j :: 0 <= j ==> !OccursAt(s, pat, j)
    decreases |s|
  {
    if |s| < |pat| then None
    else if s[..|pat|] == pat then Some(0)
    else
      var rest := FirstOccurrence(s[1..], pat);
      assert !OccursAt(s, pat, 0) by { assert s[0..|pat|] == s[..|pat|]; }
      assert forall j :: 1 <= j ==> (OccursAt(s, pat, j) <==> OccursAt(s[1..], pat, j - 1)) by {
        forall j | 1 <= j
          ensures OccursAt(s, pat, j) <==> OccursAt(s[1..], pat, j - 1)
        {
          if j + |pat| <= |s| {
            assert s[1..][j - 1..j - 1 + |pat|] == s[j..j + |pat|];
          }
        }
      }
      if rest.None? then None else Some(rest.value + 1)
  }

  /** `s.replace(pat, rep)` for a pattern without flags: only the first occurrence is replaced. */
  function ReplaceFirst(s: string, pat: string, rep: string): (r: string)
    ensures (forall j :: 0 <= j ==> !OccursAt(s, pat, j)) ==> r == s
    ensures forall k: nat :: OccursAt(s, pat, k) && (forall j :: 0 <= j < k ==> !OccursAt(s, pat, j)) ==>
      r == s[..k] + rep + s[k + |pat|..]
  {
    match FirstOccurrence(s, pat)
    case None => s
    case Some(k) => s[..k] + rep + s[k + |pat|..]
  }

  /**
   * The design document whose view the readiness poll queries: the poll strips
   * `_design/` from `dd._id` and the client puts it back in the request path.
   */
  function PollTarget(ddId: Id): Id
  {
    DesignPrefix + ReplaceFirst(ddId, DesignPrefix, "")
  }

  /** For a proper design document id, the poll queries exactly that document. */
  lemma PollTargetOfDesignId(ddId: Id)
    requires |ddId| >= |DesignPrefix| && ddId[..|DesignPrefix|] == DesignPrefix
    ensures PollTarget(ddId) == ddId
  {
  }

  /** Staging keeps the `_design/` prefix, so the poll of a staged design document queries that staged document. */
  lemma PollTargetOfStagedId(name: Id)
    requires |name| >= |DesignPrefix| && name[..|DesignPrefix|] == DesignPrefix
    ensures PollTarget(NewId(name)) == NewId(name)
  {
    assert NewId(name)[..|DesignPrefix|] == name[..|DesignPrefix|];
    PollTargetOfDesignId(NewId(name));
  }

  /** An id without `_design/` anywhere is polled under a prefixed name it does not have. */
  lemma PollTargetWithoutPrefix(ddId: Id)
    requires forall j :: 0 <= j ==> !OccursAt(ddId, DesignPrefix, j)
    ensures PollTarget(ddId) == DesignPrefix + ddId
    ensures PollTarget(ddId) != ddId
  {
  }
}

=== FILE: primitives.dfy ===
/**
 * The three document primitives of the migrator: `copydoc`, `writedoc` and
 * `deletedoc`. Each is a pure function of the store that returns the store
 * afterwards, the requests it issued in order, and the error it hands to its
 * callback.
 */
module Primitives {
  import opened Wrappers
  import opened Documents
  import opened Store

  /** What a primitive did: the store afterwards, its requests, its callback error. */
  datatype Effect = Effect(db: Db, log: seq<Request>, err: Option<Error>)

  /** The revision carried by the answer to a `get`, if it found the document. */
  function RevOf(answer: Result<Doc, Error>): Option<Rev>
  {
    if answer.Success? then answer.value.rev else None
  }

  /**
   * `copydoc(fromId, toId)`: fetch the source (a failure here is returned and
   * nothing is written), fetch the destination (a failure here is ignored),
   * then insert the source body under `toId`, carrying the destination's
   * revision when the destination was found and no revision otherwise.
   */
  function CopyDoc(db: Db, fromId: Id, toId: Id): (e: Effect)
    // the source cannot be fetched: its error is returned and nothing is written
    ensures !Visible(db, fromId) ==>
      && e.db == db
      && e.log == [Get(fromId)]
      && e.err == Some(Fetch(db, fromId).error)
    // the source is fetched: exactly one insert, of the source body under the destination id
    ensures Visible(db, fromId) ==>
      e.log == [Get(fromId), Get(toId),
                Insert(Doc(Some(toId),
                           if Visible(db, toId) then Some(db.docs[toId].rev) else None,
                           db.docs[fromId].fields))]
    // a missing destination is no obstacle
    ensures Visible(db, fromId) && db.created && InsertAt(toId) !in db.down
            && (toId in db.docs ==> GetAt(toId) !in db.down)
            ==> e.err.None?
    // the copy succeeds exactly when the source is read and the store accepts the insert
    ensures e.err.None? <==>
      && Visible(db, fromId) && db.created && InsertAt(toId) !in db.down
      && Accepts(db, toId, if Visible(db, toId) then Some(db.docs[toId].rev) else None)
    // a rejected insert is reported as a conflict
    ensures Visible(db, fromId) && db.created && InsertAt(toId) !in db.down
            && !Accepts(db, toId, if Visible(db, toId) then Some(db.docs[toId].rev) else None)
            ==> e.err == Some(Conflict)
    ensures e.err.None? ==> Visible(db, fromId) && Replaced(db, e.db, toId, db.docs[fromId].fields)
    ensures e.err.Some? ==> e.db == db
  {
    var source := Fetch(db, fromId);
    if source.Failure? then
      Effect(db, [Get(fromId)], Some(source.error))
    else
      var dest := Fetch(db, toId);
      var doc := source.value.(id := Some(toId), rev := RevOf(dest));
      var put := Put(db, doc);
      Effect(put.db, [Get(fromId), Get(toId), Insert(doc)], put.err)
  }

  /** The result of `writedoc`: its effect and the object as it mutated it. */
  datatype Written = Written(effect: Effect, obj: Doc)

  /**
   * `writedoc(obj, docid)`: look up `docid` (a failed lookup is ignored), set
   * `obj._id` to `docid` and, when the lookup found a document, `obj._rev` to
   * its revision, then insert `obj`. The insert's error is the result. The
   * caller's object is mutated, so the mutated object is returned too.
   */
  function WriteDoc(db: Db, obj: Doc, docid: Id): (w: Written)
    ensures w.obj.id == Some(docid)
    ensures w.obj.fields == obj.fields
    ensures w.obj.rev == if Visible(db, docid) then Some(db.docs[docid].rev) else obj.rev
    ensures w.effect.log == [Get(docid), Insert(w.obj)]
    // the write goes through whenever the store is reachable and the lookup was not needed or succeeded
    ensures db.created && InsertAt(docid) !in db.down
            && (if docid in db.docs then GetAt(docid) !in db.down else obj.rev.None?)
            ==> w.effect.err.None?
    // the write succeeds exactly when the store accepts the insert; otherwise its error is returned
    ensures w.effect.err.None? <==> db.created && InsertAt(docid) !in db.down && Accepts(db, docid, w.obj.rev)
    ensures db.created && InsertAt(docid) !in db.down && !Accepts(db, docid, w.obj.rev) ==>
      w.effect.err == Some(Conflict)
    ensures w.effect.err.None? ==> Replaced(db, w.effect.db, docid, obj.fields)
    ensures w.effect.err.Some? ==> w.effect.db == db
    ensures InsertAt(docid) in db.down ==> w.effect.err == Some(Unreachable)
  {
    var pre := Fetch(db, docid);
    var doc := obj.(id := Some(docid), rev := if pre.Success? then pre.value.rev else obj.rev);
    var put := Put(db, doc);
    Written(Effect(put.db, [Get(docid), Insert(doc)], put.err), doc)
  }

  /**
   * `deletedoc(docid)`: look up `docid`; if that fails, stop; otherwise
   * destroy it with the revision just read. Its callback never sees an error,
   * not even one from the destroy.
   */
  function DeleteDoc(db: Db, docid: Id): (e: Effect)
    ensures e.err.None?
    ensures !Visible(db, docid) ==> e.db == db && e.log == [Get(docid)]
    ensures Visible(db, docid) ==> e.log == [Get(docid), Destroy(docid, db.docs[docid].rev)]
    ensures Visible(db, docid) && DestroyAt(docid) !in db.down ==> Removed(db, e.db, docid)
    ensures e.db == db || Removed(db, e.db, docid)
    // with the store reachable, the document is gone afterwards whether or not it was there
    ensures db.created && GetAt(docid) !in db.down && DestroyAt(docid) !in db.down ==> docid !in e.db.docs
  {
    var found := Fetch(db, docid);
    if found.Failure? then
      Effect(db, [Get(docid)], None)
    else
      var rev := found.value.rev.value;
      var gone := Remove(db, docid, rev);
      Effect(gone.db, [Get(docid), Destroy(docid, rev)], None)
  }

  /**
   * In a store nobody else writes to, two successive `writedoc`s to the same id
   * never conflict: the first succeeds when the object carries no stale
   * revision, and the second always does, because it re-reads the revision.
   */
  lemma WriteTwiceNoConflict(db: Db, first: Doc, second: Doc, docid: Id)
    requires db.created && GetAt(docid) !in db.down && InsertAt(docid) !in db.down
    requires docid in db.docs || first.rev.None?
    ensures WriteDoc(db, first, docid).effect.err.None?
    ensures WriteDoc(WriteDoc(db, first, docid).effect.db, second, docid).effect.err.None?
    ensures Replaced(db, WriteDoc(WriteDoc(db, first, docid).effect.db, second, docid).effect.db, docid, second.fields)
  {
  }
}

=== FILE: progress.dfy ===
/**
 * The indexing progress the migrator reports while it waits for the staged
 * design document's index: the floor of the mean `progress` over the active
 * tasks that index that document.
 */
module Progress {
  import opened Wrappers
  import opened Documents

  /** One entry of `_active_tasks`, reduced to the members the migrator reads. */
  datatype Task = Task(kind: string, designDocument: Id, progress: int)

  /** A task that builds the index of the staged design document `newId`. */
  predicate Indexes(t: Task, newId: Id)
  {
    t.kind == "indexer" && t.designDocument == newId
  }

  /** The matching tasks, in order (one per shard being indexed). */
  function Matching(tasks: seq<Task>, newId: Id): (r: seq<Task>)
    ensures |r| <= |tasks|
    ensures forall i :: 0 <= i < |r| ==> Indexes(r[i], newId)
  {
    if |tasks| == 0 then []
    else
      var last := tasks[|tasks| - 1];
      Matching(tasks[..|tasks| - 1], newId) + (if Indexes(last, newId) then [last] else [])
  }

  /**
   * The filter keeps exactly the tasks that index the staged design document,
   * each as many times as it occurs: one entry per shard.
   */
  lemma {:induction false} MatchingKeepsExactlyIndexers(tasks: seq<Task>, newId: Id, t: Task)
    ensures multiset(Matching(tasks, newId))[t] == if Indexes(t, newId) then multiset(tasks)[t] else 0
    ensures t in Matching(tasks, newId) <==> t in tasks && Indexes(t, newId)
  {
    if |tasks| > 0 {
      var init, last := tasks[..|tasks| - 1], tasks[|tasks| - 1];
      MatchingKeepsExactlyIndexers(init, newId, t);
      assert tasks == init + [last];
      assert multiset(tasks) == multiset(init) + multiset{last};
    }
  }

  /** The sum of the `progress` members. */
  function Total(tasks: seq<Task>): int
  {
    if |tasks| == 0 then 0 else Total(tasks[..|tasks| - 1]) + tasks[|tasks| - 1].progress
  }

  lemma MatchingSnoc(tasks: seq<Task>, t: Task, newId: Id)
    ensures Matching(tasks + [t], newId) == Matching(tasks, newId) + (if Indexes(t, newId) then [t] else [])
  {
  }

  lemma TotalSnoc(tasks: seq<Task>, t: Task)
    ensures Total(tasks + [t]) == Total(tasks) + t.progress
  {
  }

  /** Extending the scanned prefix by one task adds at most that task to the count and the sum. */
  lemma PrefixStep(tasks: seq<Task>, i: nat, newId: Id)
    requires i < |tasks|
    ensures |Matching(tasks[..i + 1], newId)| ==
      |Matching(tasks[..i], newId)| + if Indexes(tasks[i], newId) then 1 else 0
    ensures Total(Matching(tasks[..i + 1], newId)) ==
      Total(Matching(tasks[..i], newId)) + if Indexes(tasks[i], newId) then tasks[i].progress else 0
  {
    assert tasks[..i + 1] == tasks[..i] + [tasks[i]];
    MatchingSnoc(tasks[..i], tasks[i], newId);
    if Indexes(tasks[i], newId) {
      TotalSnoc(Matching(tasks[..i], newId), tasks[i]);
    } else {
      assert Matching(tasks[..i], newId) + [] == Matching(tasks[..i], newId);
    }
  }

  /** Integer division by a positive divisor rounds down, as `Math.floor` does. */
  lemma FloorDivision(a: int, b: int)
    requires b > 0
    ensures (a / b) * b <= a < (a / b + 1) * b
  {
  }

  /**
   * The progress figure as a reference definition: unknown when no task
   * matches (the source divides zero by zero), otherwise the mean rounded down.
   */
  function Overall(tasks: seq<Task>, newId: Id): Option<int>
  {
    var shards := |Matching(tasks, newId)|;
    if shards == 0 then None else Some(Total(Matching(tasks, newId)) / shards)
  }

  /**
   * The loop over `_active_tasks`: count the matching shards and add up their
   * progress, then divide and round down.
   */
  method IndexingProgress(tasks: seq<Task>, newId: Id) returns (overall: Option<int>)
    ensures overall == Overall(tasks, newId)
  {
    var progress := 0;
    var shards := 0;
    var i := 0;
    while i < |tasks|
      invariant 0 <= i <= |tasks|
      invariant shards == |Matching(tasks[..i], newId)|
      invariant progress == Total(Matching(tasks[..i], newId))
    {
      PrefixStep(tasks, i, newId);
      if Indexes(tasks[i], newId) {
        shards := shards + 1;
        progress := progress + tasks[i].progress;
      }
      i := i + 1;
    }
    assert tasks[..i] == tasks;
    if shards == 0 {
      overall := None;
    } else {
      overall := Some(progress / shards);
    }
  }

  /** The reported figure is the mean progress of the matching shards, rounded down. */
  lemma OverallIsFloorOfMean(tasks: seq<Task>, newId: Id)
    ensures Overall(tasks, newId).Some? ==>
      var shards := |Matching(tasks, newId)|;
      var sum := Total(Matching(tasks, newId));
      var p := Overall(tasks, newId).value;
      shards > 0 && p * shards <= sum < (p + 1) * shards
  {
    var shards := |Matching(tasks, newId)|;
    if shards > 0 {
      FloorDivision(Total(Matching(tasks, newId)), shards);
    }
  }

  /** No matching task means no figure, and a matching task always yields one. */
  lemma {:induction false} OverallUnknownIffNoShard(tasks: seq<Task>, newId: Id)
    ensures Overall(tasks, newId).None? <==> forall i :: 0 <= i < |tasks| ==> !Indexes(tasks[i], newId)
  {
    if |tasks| > 0 {
      var init, last := tasks[..|tasks| - 1], tasks[|tasks| - 1];
      OverallUnknownIffNoShard(init, newId);
      assert |Matching(tasks, newId)| == |Matching(init, newId)| + if Indexes(last, newId) then 1 else 0;
      if Indexes(last, newId) {
        assert Indexes(tasks[|tasks| - 1], newId);
      } else {
        assert forall i :: 0 <= i < |init| ==> init[i] == tasks[i];
      }
    }
  }

  /** Two shards at 10% and 30% report 20%; tasks of another kind or document are ignored. */
  lemma ProgressExample()
    ensures Overall([Task("indexer", "_design/foo_NEW", 10),
                     Task("search_indexer", "_design/foo_NEW", 90),
                     Task("indexer", "_design/foo", 70),
                     Task("indexer", "_design/foo_NEW", 30)], "_design/foo_NEW") == Some(20)
  {
    var id := "_design/foo_NEW";
    var a, b, c, d := Task("indexer", id, 10), Task("search_indexer", id, 90),
                      Task("indexer", "_design/foo", 70), Task("indexer", id, 30);
    assert Indexes(a, id) && !Indexes(b, id) && !Indexes(c, id) && Indexes(d, id);
    assert [a] == [] + [a];
    assert [a, b] == [a] + [b];
    assert [a, b, c] == [a, b] + [c];
    assert [a, b, c, d] == [a, b, c] + [d];
    assert [a, d] == [a] + [d];
    MatchingSnoc([], a, id);
    MatchingSnoc([a], b, id);
    MatchingSnoc([a, b], c, id);
    MatchingSnoc([a, b, c], d, id);
    assert Matching([a, b, c, d], id) == [a, d];
    TotalSnoc([], a);
    TotalSnoc([a], d);
    assert Total([a, d]) == 40;
  }
}

=== FILE: store.dfy ===
/**
 * The database behind the migrator, as an abstract store. None of this is code
 * of the migrator: it is the behaviour the migrator assumes of CouchDB's
 * `get`, `insert` and `destroy`, including optimistic concurrency on `_rev`.
 * Transport failures are injected through `down`: every request whose target
 * is in that set fails as if the server could not be reached.
 */
module Store {
  import opened Wrappers
  import opened Documents

  /** Why a request to the store failed. */
  datatype Error = NotFound | Conflict | Unreachable

  /** What a request is aimed at; the unit of fault injection. */
  datatype Target = InfoAt | GetAt(id: Id) | InsertAt(id: Id) | DestroyAt(id: Id)

  /** A request as issued, with what it carried. */
  datatype Request = Info | Get(id: Id) | Insert(doc: Doc) | Destroy(id: Id, rev: Rev)
  {
    /** Requests that may change the store. */
    predicate IsWrite() { Insert? || Destroy? }
  }

  /** What the store keeps for one document id. */
  datatype Stored = Stored(rev: Rev, fields: Fields)

  /**
   * One database: whether it has been created, its documents, the last revision handed
   * out, and the request targets that fail with a transport error.
   */
  datatype Db = Db(created: bool, docs: map<Id, Stored>, clock: nat, down: set<Target>)

  /** No request in the log changed anything. */
  predicate NoWrites(log: seq<Request>)
  {
    forall i :: 0 <= i < |log| ==> !log[i].IsWrite()
  }

  /** A `get` of `id` answers with the document. */
  predicate Visible(db: Db, id: Id)
  {
    db.created && GetAt(id) !in db.down && id in db.docs
  }

  /** The revision `rev` lets a write to `id` through: CouchDB's optimistic concurrency. */
  predicate Accepts(db: Db, id: Id, rev: Option<Rev>)
  {
    if id in db.docs then rev == Some(db.docs[id].rev) else rev.None?
  }

  /** `db'` is `db` with the body at `id` replaced by `fields` and every other id untouched. */
  predicate Replaced(db: Db, db': Db, id: Id, fields: Fields)
  {
    && db'.created == db.created
    && db'.down == db.down
    && id in db'.docs
    && db'.docs[id].fields == fields
    && db'.docs - {id} == db.docs - {id}
  }

  /** `db'` is `db` with `id` gone and every other id untouched. */
  predicate Removed(db: Db, db': Db, id: Id)
  {
    && db'.created == db.created
    && db'.down == db.down
    && db'.docs == db.docs - {id}
  }

  /** Every stored revision was handed out by the counter: none is ahead of it. */
  predicate RevisionsIssued(db: Db)
  {
    forall id | id in db.docs :: db.docs[id].rev <= db.clock
  }

  /**
   * In a store whose revisions all came from its counter, a successful insert
   * gets a revision newer than every stored one, so the revision it carried is
   * stale afterwards; and the counter stays ahead of every stored revision.
   */
  lemma PutIssuesNewRevision(db: Db, doc: Doc)
    requires doc.id.Some?
    requires RevisionsIssued(db)
    ensures RevisionsIssued(Put(db, doc).db)
    ensures Put(db, doc).err.None? ==>
      forall id | id in db.docs :: Put(db, doc).db.docs[doc.id.value].rev > db.docs[id].rev
    ensures Put(db, doc).err.None? ==> !Accepts(Put(db, doc).db, doc.id.value, doc.rev)
  {
  }

  /** A destroy never puts a stored revision ahead of the counter. */
  lemma RemoveKeepsRevisionsIssued(db: Db, id: Id, rev: Rev)
    requires RevisionsIssued(db)
    ensures RevisionsIssued(Remove(db, id, rev).db)
  {
  }

  /** The existence check on the database (`nano.db.get`). */
  function CheckDatabase(db: Db): (r: Option<Error>)
    ensures r.None? <==> db.created && InfoAt !in db.down
  {
    if InfoAt in db.down then Some(Unreachable)
    else if !db.created then Some(NotFound)
    else None
  }

  /** `db.get(id)`: the stored body with `_id` and `_rev` attached. */
  function Fetch(db: Db, id: Id): (r: Result<Doc, Error>)
    ensures r.Success? <==> Visible(db, id)
    ensures r.Success? ==> r.value == Doc(Some(id), Some(db.docs[id].rev), db.docs[id].fields)
  {
    if GetAt(id) in db.down then Failure(Unreachable)
    else if !db.created || id !in db.docs then Failure(NotFound)
    else Success(Doc(Some(id), Some(db.docs[id].rev), db.docs[id].fields))
  }

  /** The outcome of a write: the store afterwards and the error, if any. */
  datatype Applied = Applied(db: Db, err: Option<Error>)

  /** `db.insert(doc)`: creates or updates `doc.id` when its revision is accepted. */
  function Put(db: Db, doc: Doc): (r: Applied)
    requires doc.id.Some?
    ensures r.err.None? <==> db.created && InsertAt(doc.id.value) !in db.down && Accepts(db, doc.id.value, doc.rev)
    ensures r.err.None? ==> Replaced(db, r.db, doc.id.value, doc.fields)
    ensures r.err.Some? ==> r.db == db
  {
    var id := doc.id.value;
    if InsertAt(id) in db.down then Applied(db, Some(Unreachable))
    else if !db.created then Applied(db, Some(NotFound))
    else if !Accepts(db, id, doc.rev) then Applied(db, Some(Conflict))
    else
      var rev := db.clock + 1;
      Applied(db.(docs := db.docs[id := Stored(rev, doc.fields)], clock := rev), None)
  }

  /** `db.destroy(id, rev)`: deletes `id` when `rev` is its current revision. */
  function Remove(db: Db, id: Id, rev: Rev): (r: Applied)
    ensures r.err.None? <==> db.created && DestroyAt(id) !in db.down && id in db.docs && db.docs[id].rev == rev
    ensures r.err.None? ==> Removed(db, r.db, id)
    ensures r.err.Some? ==> r.db == db
  {
    if DestroyAt(id) in db.down then Applied(db, Some(Unreachable))
    else if !db.created || id !in db.docs then Applied(db, Some(NotFound))
    else if db.docs[id].rev != rev then Applied(db, Some(Conflict))
    else Applied(db.(docs := db.docs - {id}), None)
  }
}

=== FILE: wrappers.dfy ===
/** Failure-compatible wrappers shared by the whole model. */
module Wrappers {

  /** A value that may be absent (a JavaScript property that is `undefined`). */
  datatype Option<+T> = None | Some(value: T)

  /** The `(err, data)` pair of a Node callback: exactly one side is meaningful. */
  datatype Result<+T, +E> = Success(value: T) | Failure(error: E)
}
